=== FILE: README.md ===
# Audio playback backends of weasound, modelled in Dafny

This project models the audio-output layer of weasound (`src/audio-playback.ts`)
and the environment predicates it depends on (`src/util.ts`). The layer offers
one "play a block of samples" interface over four backends. It picks one of
them from a memoised capability record.

- **Ring buffer** (`AudioPlaybackSP`, module `RingBuffer`). `play` queues a copy
  of each block and keeps `_bufLen` in step. The ScriptProcessor callback runs
  four phases. First a start gate: it waits for twice the output length. Then an
  overflow drop: oldest blocks go while half a second or more is queued. Then
  the drain copy: the front block is split where needed, and output channel `i`
  reads input channel `i % n`. Last a stop gate: `_playing` is reset once the
  queue is empty.
- **Timeline** (`AudioPlaybackAB`, module `Timeline`). Each block is scheduled
  where the previous one ends, or one buffer size from now if that time has
  passed.
- **Worklets** (`AudioPlaybackAWP` and `AudioPlaybackSharedAWP`, module
  `Worklet`). These use the wall-clock end-time estimate. A message port is
  modelled as the trace of messages posted on it. The shared node is a
  multiplexer of per-stream ports.
- **Frame pipe** (the base `pipeFrom`, module `FramePipe`). A message is either
  a raw block or a shared ring handle. For a handle, the `[lo, hi)` range is
  split where it wraps around.
- **Selection** (`createAudioPlaybackNoBidir` with `playCache`, module
  `Selector`).
- **Environment predicates** (module `Util`). These are user-agent substring
  tests, the `bug*` flags, and the per-stream, per-MIME-type memo of
  `supportsMediaRecorder`.

Sample values are an opaque type parameter `S`. Times are `real`. The clocks
are inputs: `currentTime` in seconds for the timeline, `performance.now()` in
milliseconds for the worklets. The sample rate, the user agent, the browser
facilities, `MediaRecorder.isTypeSupported` and the outcome of a trial
recording are inputs too. Every operation is a pure function of its inputs.
The ring-buffer callback and its copy loop are methods with loop invariants.

Four behaviours of the code are worth stating up front:

- The timeline starts a block at `_nextTime` whenever `_nextTime >= currentTime`.
  This is not `max(_nextTime, now + buffer)`.
- The timeline's `playing()` returns `_nextTime < currentTime`. That is the
  reverse of its documentation (see Findings).
- The default choice is the timeline backend unless the Firefox bug flag is set.
  The shared worklet is preferred only in that case. `"awp"` is never a default.
- `ab` is always marked usable in the capability record. A record in which only
  the ring buffer is usable cannot occur.

## Model

| member | source | states |
|---|---|---|
| RingBuffer.Init | src/audio-playback.ts:450-452 | a new backend has an empty queue (`_buf = []`), a zero counter and a closed gate, satisfies the state invariant, and `playing()` is false |
| RingBuffer.Playing | src/audio-playback.ts:547-549 | whenever the gate flag is set, `playing()` holds. When it does not hold, no frames are queued |
| RingBuffer.Latency | src/audio-playback.ts:555-557 | the nominal latency is positive and is 2048 frames expressed in milliseconds |
| RingBuffer.Play | src/audio-playback.ts:535-545 | queues the block at the back. Every channel's stream grows by exactly the block's source channel, in order. `_bufLen` stays equal to the queued frame count. The latency is (frames queued before + 2048) / sampleRate, in ms |
| RingBuffer.PlayOnEmptyQueue | src/audio-playback.ts:544-557 | on an empty queue, `play` returns the nominal `latency()` and `playing()` turns true |
| RingBuffer.GateAfterPlays | src/audio-playback.ts:467-472 | after any number of `play` calls on an idle backend, the gate is still closed and the queue holds all blocks in order. The next callback starts draining exactly when at least twice its output length is queued |
| RingBuffer.DropOverflow | src/audio-playback.ts:455-478 | after the drop, fewer than `maxBuf = sampleRate >> 1` frames remain. The survivors are a suffix of the old queue, and nothing is dropped below the limit. The last block dropped was needed to get under the limit. The counter stays exact |
| RingBuffer.DrainBlock | src/audio-playback.ts:483-507 | one copy step writes `min(remain, front block)` frames. A front block that fits is removed whole. A longer one keeps its samples after the first `remain`, with the rest of the queue untouched, and `remain` becomes 0. The written output and the remaining queue stay consistent with the original queue |
| RingBuffer.Drain | src/audio-playback.ts:481-508 | writes `rd = min(outLen, queued)` frames. Output channel `i` gets the first `rd` frames of the queue's channel-`i % n` stream. Every remaining stream is the old one minus its first `rd` frames. The counter stays exact, and the queue is empty whenever fewer than `outLen` frames were written. `Remains` pins which blocks are left: a suffix of the old queue whose front block keeps its channels and may have lost its first frames. Every block removed whole was started while frames were still wanted, so the loop stops as soon as `outLen` frames are written, even before an empty block |
| RingBuffer.Process | src/audio-playback.ts:460-513 | when the gate stays closed, neither the queue nor the output changes. Otherwise the output is the drained prefix of the post-drop queue, and the rest stays queued, with `Remains` pinning which of its blocks are left. `_playing` ends true exactly when the queue is non-empty. Reachable states stay consistent |
| RingBuffer.ProcessConsumesFront | src/audio-playback.ts:474-478 | the frames the overflow drop discards are exactly the front of every channel's stream |
| RingBuffer.StreamAppend | src/audio-playback.ts:536-538 | appending a block extends every channel stream by that block's source channel |
| RingBuffer.StreamSuffix | src/audio-playback.ts:475-478 | dropping the first k blocks drops exactly their frames from every channel stream |
| Timeline.New | src/audio-playback.ts:150-155 | a new backend keeps the buffer size and has nothing scheduled (`_nextTime` is negative) |
| Timeline.Play | src/audio-playback.ts:161-178 | a zero-frame block throws in `createBuffer`, and a negative start time, possible only with a negative buffer size, throws in `start`. Either leaves the state unchanged. Otherwise the new `_nextTime` is now + latency + block duration. If `_nextTime` is not behind the clock, the block starts exactly there. Otherwise the latency is the buffer size, which is what `latency()` returns (lines 189-191). With a non-negative buffer size the latency is non-negative and the block never starts before the previous block's end |
| Timeline.EmptyBlockSchedulesNothing | src/audio-playback.ts:161-176 | a zero-frame `play` changes nothing that any later `play` schedules |
| Timeline.NoOverlap | src/audio-playback.ts:171-176 | with a non-negative buffer size, over any sequence of `play` calls, each scheduled block starts no earlier than the previous scheduled block ends. A monotone clock is not needed |
| Timeline.StartsAfterNext | src/audio-playback.ts:171-176 | with a non-negative buffer size, every later scheduled block starts at or after the current `_nextTime` |
| Timeline.PlayingAsWritten | src/audio-playback.ts:180-182 | with a non-negative buffer size, `playing()` as written holds exactly when the next block would start after `_nextTime`, that is, not appended to queued audio |
| Timeline.Playing | src/audio-playback.ts:65-70 | the documented `playing()` is the negation of the one written |
| Timeline.PlayingMeansAppended | src/audio-playback.ts:65-70 | the corrected `playing()` holds exactly when the next block would be appended at `_nextTime` |
| Timeline.PlayingAsWrittenIsInverted | src/audio-playback.ts:180-182 | right after a block is scheduled, a block posted at the same instant is appended, yet `playing()` as written answers false |
| Worklet.Estimate | src/audio-playback.ts:259-265 | the latency is always positive. It is `_endTime - now` while audio is estimated to play, and exactly 50 otherwise, which is `latency()` (lines 283-285). The new end time is now + latency + duration, and it never moves back |
| Worklet.PlayingAfterPlay | src/audio-playback.ts:268-270 | after `play`, `playing()` holds exactly until now + latency + duration, so at least for the block's own duration |
| Worklet.PlayingMeansAppended | src/audio-playback.ts:65-70 | `Worklet.Playing` is the model of `playing()` of both worklet backends (`_endTime > performance.now()`, lines 268-270 and 387-389). This lemma proves the documented meaning: it holds exactly when a block posted now is appended at the current estimated end |
| Worklet.NewAwp | src/audio-playback.ts:216-222 | a new backend has no worklet, no connected input and an empty trace |
| Worklet.AwpInit | src/audio-playback.ts:227-247 | initialisation creates the worklet and connects the input to it, and changes nothing else |
| Worklet.AwpPlay | src/audio-playback.ts:253-266 | before `init` the call throws and nothing changes. Afterwards it posts exactly the block and applies the shared estimate |
| Worklet.AwpPipeFrom | src/audio-playback.ts:275-277 | hands the port to the worklet with one `in` message. It throws before `init` |
| Worklet.AwpClose | src/audio-playback.ts:297-303 | without a worklet nothing happens. The first close disconnects the input and posts `done`. A later close finds the input disconnected, throws and posts nothing |
| Worklet.AwpStepKeepsProtocol | src/audio-playback.ts:253-303 | every call keeps "`done` posted once exactly when the input is disconnected". A close after the first leaves the backend unchanged |
| Worklet.AwpDoneOnce | src/audio-playback.ts:297-303 | after `init`, any sequence of `play`, `pipeFrom` and `close` posts `done` at most once |
| Worklet.SharedPlay | src/audio-playback.ts:373-385 | posts the block only while the port is set. The estimate is the same as the dedicated worklet's |
| Worklet.SharedPipeFrom | src/audio-playback.ts:394-397 | forwards the port with one `in` message only while the port is set |
| Worklet.SharedClose | src/audio-playback.ts:418-423 | posts `stop` only if the port is set, then nulls it. The estimate is untouched |
| Worklet.StepKeepsProtocol | src/audio-playback.ts:377-423 | no operation posts after `stop`, and `stop` comes only with the port nulled |
| Worklet.RunKeepsProtocol | src/audio-playback.ts:377-423 | over any sequence of operations, `stop` is posted at most once and is the last message |
| Worklet.ClosedPostsNothing | src/audio-playback.ts:377-423 | once the port is null, `play`, `pipeFrom` and `close` post nothing more |
| Worklet.SharedInit | src/audio-playback.ts:339-367 | the shared worklet is created only by the first stream. Each stream registers one new private port with it |
| Worklet.MuxStep | src/audio-playback.ts:373-423 | an operation on one stream leaves the shared node and every other stream unchanged |
| Worklet.CreatedOnce | src/audio-playback.ts:347-361 | however many streams initialise, the shared worklet is created once |
| Worklet.CloseIsolated | src/audio-playback.ts:414-423 | closing stream A keeps the shared node and stream B unchanged. B's next `play` posts and returns exactly what it would have |
| FramePipe.OnMessage | src/audio-playback.ts:77-105 | a message with non-zero length is played unchanged. A `buffers` message starts a wait. Anything else, including an empty array, is ignored |
| FramePipe.Split | src/audio-playback.ts:92-101 | `hi > lo` gives one block `[lo,hi)`. Otherwise it gives `[lo,end)` and then `[0,hi)`, the second only if `hi > 0`. Each channel of each block is exactly that slice of the ring channel. Each block keeps the channel count and, for a ring with channels, is well formed |
| FramePipe.SplitIsCircularRange | src/audio-playback.ts:95-101 | on every channel, the played blocks concatenate to the samples from `lo` round the ring to `hi`, taken one by one modulo the ring size. `hi == lo` plays the whole ring |
| FramePipe.WrapExample | src/audio-playback.ts:95-101 | 100 samples at offset 4090 of a 4096-sample ring come back as `[4090,4096)` then `[0,94)` |
| Util.IndexOfFrom | src/util.ts:23 | returns the first occurrence at or after `k`, or -1 exactly when there is none |
| Util.Has | src/util.ts:23 | `indexOf(p) >= 0` holds exactly when `p` is a substring |
| Util.IsChrome | src/util.ts:21-24 | true iff the user agent contains "Chrome" |
| Util.IsSafari | src/util.ts:30-33 | true iff the user agent contains "Safari" and not "Chrome" |
| Util.IsFirefox | src/util.ts:38-40 | true iff the user agent contains "Firefox" |
| Util.IsAndroid | src/util.ts:46-48 | true iff the user agent contains "Android" |
| Util.SafariIsNotChrome | src/util.ts:21-33 | no user agent is both Safari and Chrome |
| Util.ChromeMasksSafari | src/util.ts:21-33 | every user agent naming both browsers counts as Chrome, not Safari |
| Util.BugNeedSharedNodes | src/util.ts:56-58 | always false |
| Util.BugPreferMediaRecorderPCM | src/util.ts:65-67 | true iff the user agent contains "Chrome" and not "Android" |
| Util.BugUnreliableAudioBuffers | src/util.ts:111-113 | true iff the user agent contains "Firefox" |
| Util.BugNeedLargeBuffers | src/util.ts:120-122 | true iff the user agent contains "Chrome" |
| Util.Rejects | src/util.ts:80-85 | the gate rejects exactly when MediaRecorder is missing, or the type is unsupported on Android. A supported type never fails it |
| Util.SupportsMediaRecorder | src/util.ts:76-105 | false without probing if MediaRecorder is missing, or if the type is unsupported on Android. True without probing for a null stream. A memoised answer is returned without probing. Otherwise the trial is made and its success is recorded and returned. Every other (stream, type) entry is unchanged |
| Util.UnsupportedTypePassesOffAndroid | src/util.ts:80-85 | the operator precedence lets an unsupported type through the gate on a browser that is not Android |
| Util.MemoIsStable | src/util.ts:88-104 | asking again for a memoised (stream, type) gives the same answer without a trial, whatever a trial would now do |
| Selector.Probe | src/audio-playback.ts:602-613 | `ab` is always usable. `shared-awp` and `awp` are usable iff `AudioWorkletNode` exists, `sp` iff `createScriptProcessor` exists, and `shared-sp` never |
| Selector.EnsureCache | src/audio-playback.ts:601-613 | the cache is filled, with one probe, only when it is null |
| Selector.Choose | src/audio-playback.ts:615-628 | `demandedType` always wins. `preferredType` wins only if the record marks it usable. The default is `ab` unless Firefox, then `shared-awp` if usable, else `sp` |
| Selector.BufferSize | src/audio-playback.ts:641 | a missing or zero buffer size means 50 ms |
| Selector.Construct | src/audio-playback.ts:630-646 | `shared-awp`, `awp` and `ab` build their own backend. Anything else, `shared-sp` included, builds the ring buffer. The worklet kinds reject without `AudioWorkletNode`, and the ring buffer rejects without `createScriptProcessor` (line 459). The timeline backend is always built |
| Selector.Create | src/audio-playback.ts:598-647 | one selection fills the cache only if it is null, with one probe. A demanded `ab` always builds the timeline backend with the requested buffer size, or 50 ms when it is absent or zero. A demanded `awp` builds it exactly when `AudioWorkletNode` exists. With no demand or preference, a non-Firefox browser builds the timeline backend. A backend is built only when its facility exists, and the call rejects only when some facility is missing |
| Selector.AwpNeverDefault | src/audio-playback.ts:615-628 | `awp` is chosen only when demanded or preferred |
| Selector.FirefoxFallsBackToRingBuffer | src/audio-playback.ts:598-646 | on Firefox without audio worklets, a selection with neither demand nor preference builds the ring buffer when `createScriptProcessor` exists and rejects otherwise. The cache may be fresh or filled by the same browser |
| Selector.ProbedOnce | src/audio-playback.ts:592-613 | over any non-empty sequence of selections from a fresh process, the capability record is probed exactly once |
| Selector.CachedNeverProbes | src/audio-playback.ts:601-628 | with the cache filled, selections neither probe nor change it. Each request gets the backend it would get on its own |

## Findings

| source | as written | input that shows it | evidently intended | confidence | as-written member | corrected member |
|---|---|---|---|---|---|---|
| src/audio-playback.ts:180-182 | `playing()` returns `_nextTime < currentTime`: true when the scheduled audio has already run out | a fresh timeline backend with buffer size 50. `play` a 480-frame block at 48 kHz at time 0 and `_nextTime` becomes 0.06. `playing()` at time 0 answers false, yet the next block is appended at 0.06 | `currentTime <= _nextTime`. The documentation (lines 65-70) promises true when new audio is appended to audio already queued, and the other backends report it that way | high (not executed) | Timeline.PlayingAsWrittenIsInverted | Timeline.Playing |

## Left out

- Web Audio node plumbing is not modelled: `createGain`, `createBuffer`/`copyToChannel`, `createBufferSource`, `createScriptProcessor`, `createConstantSource`, `AudioWorkletNode`, and `connect`/`disconnect`/`start`/`stop`. These are browser APIs. So `close` of the timeline backend (a disconnect) and of the ring-buffer backend (stopping the null input and disconnecting it) has no modelled effect.
- `unsharedNode()` and `sharedNode()` are left out. They only return node references.
- `channels()` is left out. It is a constant: 2 for the timeline backend, 1 for the others.
- The waiter Worker and the `Atomics.load` fence in `pipeFrom` are cross-thread synchronisation. The range the waiter reports is an input.
- MessagePort transfer semantics, and the behaviour of the worklet processors themselves, are not modelled. Their code is not part of this model. Posted messages are recorded as a trace only.
- `init` of the worklet backends is asynchronous. It is reduced to setting the worklet or port. The `addModule` promise shared per audio context is not modelled. Nor is the constant-source `_input` that the first shared stream creates.
- The `events.EventEmitter` base class is not part of this model.
- Sample values are opaque, and times are exact `real`s. `Float32Array` contents and IEEE rounding are not modelled. For example, `(_endTime + time) - time` is exactly `_endTime` here.
- The ring buffer's sample rate is a natural number. `sampleRate >> 1` is taken as halving it. Callers must give at least 2. Below that the source's drop loop empties the queue and then throws.
- Blocks handed to `play` must be well formed: at least one channel, all of equal length. The source reads `data[0]` and counts only the first channel. Ragged or channel-less blocks are not modelled.
- The defensive copy in `AudioPlaybackSP.play` (`x.slice(0)`) and the in-place `subarray` of the front block are not modelled separately. Dafny sequences are values, so both are implicit.
- Timeline.Play: only the zero-length rejection of `createBuffer` and the negative-time rejection of `start` are modelled. `createBuffer`'s other refusals, an unsupported sample rate or channel count, depend on the browser.
- Worklet.AwpInit: a second `init` builds a new worklet and a new input. The model keeps one trace for the backend, not one per worklet port.
- A `NaN` buffer size, which `|| 50` also maps to 50 ms, cannot be expressed with `real`.
- FramePipe.SplitIsCircularRange: requires the read position `lo` to be a ring position (`lo < cap`). With `lo == cap` and `hi == 0` the source plays one empty block, and the modular reference would instead describe a full ring.
- The `supportsMediaRecorder` memo is keyed by a stream id rather than stored on the stream object. The empty record that the source attaches to a stream before probing is not distinguished from no record.
- `rollup.config.mjs` and `src/build-sourcemod.js` are build tooling with no behaviour to model.

=== FILE: blocks.dfy ===
/** Sample blocks as handed to `play`: one buffer per channel, all of the
    same length. Sample values are an opaque type `S`: nothing in the
    playback layer does arithmetic on them. */
module Blocks {

  /** A multi-channel block of samples (a `Float32Array[]` in the source). */
  type Block<S> = seq<seq<S>>

  /** The result of a `play` call: the backend's new state and the latency
      estimate, in milliseconds, that `play` returns. */
  datatype Played<T> = Played(state: T, latencyMs: real)

  /** A block has at least one channel and all channels have the same length. */
  predicate WellFormed<S>(b: Block<S>)
  {
    |b| >= 1 && forall c :: 0 <= c < |b| ==> |b[c]| == |b[0]|
  }

  /** Number of sample frames in a block: the length of its first channel. */
  function Frames<S>(b: Block<S>): nat
  {
    if |b| == 0 then 0 else |b[0]|
  }

  /** The channel of `b` that output channel `i` reads: when the output has
      more channels than the block, source channels are reused cyclically. */
  function Source<S>(b: Block<S>, i: nat): seq<S>
    requires |b| >= 1
  {
    b[i % |b|]
  }

  /** Every channel of `b` without its first `n` samples. */
  function DropFrames<S>(b: Block<S>, n: nat): (r: Block<S>)
    requires WellFormed(b) && n <= Frames(b)
    ensures WellFormed(r) && Frames(r) == Frames(b) - n && |r| == |b|
    ensures forall i: nat :: Source(r, i) == Source(b, i)[n..]
  {
    seq(|b|, c requires 0 <= c < |b| => b[c][n..])
  }

  /** Every channel of `b` cut down to the sample range `[lo, hi)`. */
  function SliceFrames<S>(b: Block<S>, lo: nat, hi: nat): (r: Block<S>)
    requires lo <= hi
    requires forall c :: 0 <= c < |b| ==> hi <= |b[c]|
    ensures |r| == |b|
    ensures forall c :: 0 <= c < |r| ==> r[c] == b[c][lo..hi]
  {
    seq(|b|, c requires 0 <= c < |b| => b[c][lo..hi])
  }

  function Min(a: int, b: int): int
  {
    if a <= b then a else b
  }

  /** Every channel of a well-formed block holds all of its frames. */
  lemma SourceFrames<S>(b: Block<S>, i: nat)
    requires WellFormed(b)
    ensures |Source(b, i)| == Frames(b)
    ensures Source(b, i)[..Frames(b)] == Source(b, i) && Source(b, i)[Frames(b)..] == []
  {
  }
}

=== FILE: frame_pipe.dfy ===
/** The default `pipeFrom` of the playback base class (source lines 76-107):
    messages arriving on a port are either raw blocks, played as they are,
    or a handle on a shared ring of per-channel sample buffers. For a
    handle, a waiter thread later reports a read range `[lo, hi)` of the ring,
    and the range is played as one block, or as two when it wraps around.
    The waiter thread and its memory fence are not modelled: the range it
    reports is an input. */
module FramePipe {
  import opened Blocks

  /** What arrives on the port. `Raw` is an array of channels; one with no
      channels has `length` 0, which is falsy, and is ignored. `Buffers` is
      `{c: "buffers", buffers, head}`, `Other` is any other object. */
  datatype PipeMsg<S> = Raw(data: Block<S>) | Buffers(buffers: seq<seq<S>>) | Other

  /** What the message handler does with one message. */
  datatype Action<S> = PlayBlock(block: Block<S>) | Wait(buffers: seq<seq<S>>) | Ignore

  /** The port's message handler (source lines 77-106). A raw message with
      length 0 is falsy and, carrying no `c` field, is ignored. */
  function OnMessage<S>(msg: PipeMsg<S>): (a: Action<S>)
    ensures msg.Raw? && |msg.data| > 0 ==> a == PlayBlock(msg.data)
    ensures msg.Buffers? ==> a == Wait(msg.buffers)
    ensures a.PlayBlock? ==> msg.Raw? && a.block == msg.data
    ensures a.Ignore? <==> msg.Other? || (msg.Raw? && |msg.data| == 0)
  {
    match msg
    case Raw(data) => if |data| > 0 then PlayBlock(data) else Ignore
    case Buffers(buffers) => Wait(buffers)
    case Other => Ignore
  }

  /** The ring's channels all hold `cap` samples. */
  predicate Ring<S>(buffers: seq<seq<S>>, cap: nat)
  {
    forall c :: 0 <= c < |buffers| ==> |buffers[c]| == cap
  }

  /** The blocks passed to `play` when the waiter reports `[lo, hi)`
      (source lines 92-101). */
  function Split<S>(buffers: seq<seq<S>>, cap: nat, lo: nat, hi: nat): (blocks: seq<Block<S>>)
    requires Ring(buffers, cap) && lo <= cap && hi <= cap
    ensures 1 <= |blocks| <= 2
    ensures forall k :: 0 <= k < |blocks| ==> |blocks[k]| == |buffers|
    ensures hi > lo ==> |blocks| == 1
    ensures |blocks| == 2 <==> hi <= lo && hi > 0
    ensures forall c :: 0 <= c < |buffers| ==> blocks[0][c] == buffers[c][lo..if hi > lo then hi else cap]
    ensures |blocks| == 2 ==> forall c :: 0 <= c < |buffers| ==> blocks[1][c] == buffers[c][..hi]
    ensures |buffers| >= 1 ==> forall k :: 0 <= k < |blocks| ==> WellFormed(blocks[k])
  {
    if hi > lo then
      [SliceFrames(buffers, lo, hi)]
    else if hi > 0 then
      [SliceFrames(buffers, lo, cap), SliceFrames(buffers, 0, hi)]
    else
      [SliceFrames(buffers, lo, cap)]
  }

  /** Channel `c` of a sequence of blocks, concatenated. */
  function Concat<S>(blocks: seq<Block<S>>, c: nat): seq<S>
    requires forall k :: 0 <= k < |blocks| ==> c < |blocks[k]|
    decreases |blocks|
  {
    if |blocks| == 0 then [] else blocks[0][c] + Concat(blocks[1..], c)
  }

  /** Number of samples between read position `lo` and write position `hi`
      going round the ring; equal positions mean a full ring. */
  function Available(cap: nat, lo: nat, hi: nat): (n: nat)
    requires cap > 0
    ensures 0 < n <= cap
  {
    var d := (hi - lo) % cap;
    if d == 0 then cap else d
  }

  /** The samples of channel `c` from `lo` round the ring to `hi`, one by
      one: the reference the split is checked against. */
  function CircularRange<S>(ring: seq<S>, cap: nat, lo: nat, hi: nat): (r: seq<S>)
    requires cap > 0 && |ring| == cap
    ensures |r| == Available(cap, lo, hi)
  {
    seq(Available(cap, lo, hi), k requires 0 <= k < Available(cap, lo, hi) => ring[(lo + k) % cap])
  }

  lemma AvailableNoWrap(cap: nat, lo: nat, hi: nat)
    requires cap > 0 && lo < hi <= cap
    ensures Available(cap, lo, hi) == hi - lo
  {
    if hi - lo == cap {
      assert (hi - lo) % cap == 0;
    } else {
      assert (hi - lo) % cap == hi - lo;
    }
  }

  lemma AvailableWrap(cap: nat, lo: nat, hi: nat)
    requires cap > 0 && hi <= lo < cap
    ensures Available(cap, lo, hi) == cap - lo + hi
  {
    if hi == lo {
      assert (hi - lo) % cap == 0;
    } else {
      assert (hi - lo) % cap == cap + hi - lo;
    }
  }

  lemma ModOnce(x: nat, cap: nat)
    requires cap > 0 && x < 2 * cap
    ensures x % cap == if x < cap then x else x - cap
  {
  }

  lemma ConcatOne<S>(b: Block<S>, c: nat)
    requires c < |b|
    ensures Concat([b], c) == b[c]
  {
    assert [b][1..] == [];
  }

  lemma ConcatTwo<S>(b1: Block<S>, b2: Block<S>, c: nat)
    requires c < |b1| && c < |b2|
    ensures Concat([b1, b2], c) == b1[c] + b2[c]
  {
    assert [b1, b2][1..] == [b2];
    ConcatOne(b2, c);
  }

  /** The circular range read without wrapping. */
  lemma CircularNoWrap<S>(ring: seq<S>, cap: nat, lo: nat, hi: nat)
    requires cap > 0 && |ring| == cap && lo < hi <= cap
    ensures CircularRange(ring, cap, lo, hi) == ring[lo..hi]
  {
    AvailableNoWrap(cap, lo, hi);
    var want := CircularRange(ring, cap, lo, hi);
    forall k | 0 <= k < |want|
      ensures want[k] == ring[lo..hi][k]
    {
      ModOnce(lo + k, cap);
    }
  }

  /** The circular range read as the end of the ring, then its start. */
  lemma CircularWrap<S>(ring: seq<S>, cap: nat, lo: nat, hi: nat)
    requires cap > 0 && |ring| == cap && hi <= lo < cap
    ensures CircularRange(ring, cap, lo, hi) == ring[lo..cap] + ring[0..hi]
  {
    AvailableWrap(cap, lo, hi);
    var want := CircularRange(ring, cap, lo, hi);
    var got := ring[lo..cap] + ring[0..hi];
    forall k | 0 <= k < |want|
      ensures want[k] == got[k]
    {
      ModOnce(lo + k, cap);
    }
  }

  /** The wrap-around split plays exactly the circular range from `lo` to
      `hi`, in order, on every channel; `hi == lo` plays the whole ring. */
  lemma SplitIsCircularRange<S>(buffers: seq<seq<S>>, cap: nat, lo: nat, hi: nat, c: nat)
    requires Ring(buffers, cap) && cap > 0 && lo < cap && hi <= cap && c < |buffers|
    ensures Concat(Split(buffers, cap, lo, hi), c) == CircularRange(buffers[c], cap, lo, hi)
    ensures hi == lo ==> |Concat(Split(buffers, cap, lo, hi), c)| == cap
  {
    var ring := buffers[c];
    if hi > lo {
      ConcatOne(SliceFrames(buffers, lo, hi), c);
      CircularNoWrap(ring, cap, lo, hi);
    } else if hi > 0 {
      ConcatTwo(SliceFrames(buffers, lo, cap), SliceFrames(buffers, 0, hi), c);
      CircularWrap(ring, cap, lo, hi);
    } else {
      ConcatOne(SliceFrames(buffers, lo, cap), c);
      CircularWrap(ring, cap, lo, hi);
      assert ring[0..hi] == [];
    }
  }

  /** The wrap-around case worked through: 100 samples written at offset 4090
      of a 4096-sample ring come back as the last 6 and the first 94. */
  lemma WrapExample<S>(ring: seq<S>)
    requires |ring| == 4096
    ensures Split([ring], 4096, 4090, 94) == [[ring[4090..4096]], [ring[0..94]]]
    ensures Concat(Split([ring], 4096, 4090, 94), 0) == CircularRange(ring, 4096, 4090, 94)
    ensures |Concat(Split([ring], 4096, 4090, 94), 0)| == 100
  {
    assert SliceFrames([ring], 4090, 4096) == [ring[4090..4096]];
    assert SliceFrames([ring], 0, 94) == [ring[0..94]];
    SplitIsCircularRange([ring], 4096, 4090, 94, 0);
    AvailableWrap(4096, 4090, 94);
  }
}

=== FILE: options.dfy ===
/** An optional value, for the source's nullable references and for
    operations that throw. */
module Options {
  datatype Option<T> = None | Some(value: T)
}

=== FILE: ring_buffer.dfy ===
/** The pull-driven ring-buffer backend (`AudioPlaybackSP`): `play` queues a
    copy of each block, and the device's processing callback gates on a start
    threshold, drops the oldest blocks on overflow, drains the queue into the
    output buffers and re-arms the gate when the queue runs dry. */
module RingBuffer {
  import opened Blocks

  /** Frames a ScriptProcessor callback asks for (`createScriptProcessor(4096, …)`). */
  const Quantum: nat := 4096

  /** Half the quantum: the expected wait until the next pull. */
  const HalfQuantum: nat := 2048

  /** The queued blocks (`_buf`) and the running frame count (`_bufLen`). */
  datatype Queue<S> = Queue(buf: seq<Block<S>>, bufLen: int)

  /** Backend state: the queue and the `_playing` gate. */
  datatype SpState<S> = SpState(queue: Queue<S>, playing: bool)

  predicate AllWellFormed<S>(q: seq<Block<S>>)
  {
    forall k :: 0 <= k < |q| ==> WellFormed(q[k])
  }

  /** Total frames queued: the sum of the first-channel lengths. */
  function Len<S>(q: seq<Block<S>>): nat
  {
    if |q| == 0 then 0 else Frames(q[0]) + Len(q[1..])
  }

  /** What output channel `i` would read if the whole queue were played:
      the concatenation, block by block, of channel `i % channels`. */
  function Stream<S>(q: seq<Block<S>>, i: nat): (r: seq<S>)
    requires AllWellFormed(q)
    ensures |r| == Len(q)
  {
    if |q| == 0 then [] else Source(q[0], i) + Stream(q[1..], i)
  }

  /** The counter tracks the queue exactly. */
  predicate QueueInv<S>(q: Queue<S>)
  {
    AllWellFormed(q.buf) && q.bufLen == Len(q.buf)
  }

  /** Reachable states: a consistent queue, and never "playing" an empty one. */
  predicate Inv<S>(st: SpState<S>)
  {
    QueueInv(st.queue) && (st.playing ==> |st.queue.buf| > 0)
  }

  function Init<S>(): (st: SpState<S>)
    ensures Inv(st) && !st.playing && Len(st.queue.buf) == 0
    ensures st.queue.buf == [] && st.queue.bufLen == 0 && !Playing(st)
  {
    SpState(Queue([], 0), false)
  }

  /** `_bufLen` for the overflow limit: half a second of audio, `sampleRate >> 1`. */
  function MaxBuf(sampleRate: nat): nat
  {
    sampleRate / 2
  }

  lemma {:induction false} LenAppend<S>(q: seq<Block<S>>, b: Block<S>)
    ensures Len(q + [b]) == Len(q) + Frames(b)
    decreases |q|
  {
    if |q| == 0 {
      assert q + [b] == [b];
    } else {
      assert (q + [b])[1..] == q[1..] + [b];
      LenAppend(q[1..], b);
    }
  }

  lemma {:induction false} StreamAppend<S>(q: seq<Block<S>>, b: Block<S>, i: nat)
    requires AllWellFormed(q) && WellFormed(b)
    ensures AllWellFormed(q + [b])
    ensures Stream(q + [b], i) == Stream(q, i) + Source(b, i)
    decreases |q|
  {
    if |q| == 0 {
      assert q + [b] == [b];
    } else {
      assert (q + [b])[1..] == q[1..] + [b];
      StreamAppend(q[1..], b, i);
    }
  }

  /** Dropping the first `k` blocks drops exactly their frames from every
      channel's stream. */
  lemma {:induction false} StreamSuffix<S>(q: seq<Block<S>>, k: nat, i: nat)
    requires AllWellFormed(q) && k <= |q|
    ensures Len(q) == Len(q[..k]) + Len(q[k..])
    ensures Stream(q[k..], i) == Stream(q, i)[Len(q[..k])..]
    decreases k
  {
    if k > 0 {
      StreamSuffix(q[1..], k - 1, i);
      assert q[1..][k - 1..] == q[k..];
      assert q[..k][1..] == q[1..][..k - 1];
    }
  }

  /** `play` (source lines 535-549): queue a copy of the block and report the
      queued duration plus half a quantum as latency. */
  function Play<S>(st: SpState<S>, data: Block<S>, sampleRate: nat): (r: Played<SpState<S>>)
    requires Inv(st) && WellFormed(data) && sampleRate > 0
    ensures Inv(r.state)
    ensures r.state.playing == st.playing
    ensures r.state.queue.buf == st.queue.buf + [data]
    ensures Len(r.state.queue.buf) == Len(st.queue.buf) + Frames(data)
    ensures forall j: nat :: Stream(r.state.queue.buf, j) == Stream(st.queue.buf, j) + Source(data, j)
    ensures r.latencyMs == (Len(st.queue.buf) + HalfQuantum) as real / sampleRate as real * 1000.0
  {
    var prevBufLen := st.queue.bufLen;
    var q := st.queue.buf + [data];
    LenAppend(st.queue.buf, data);
    forall j: nat
      ensures AllWellFormed(q) && Stream(q, j) == Stream(st.queue.buf, j) + Source(data, j)
    {
      StreamAppend(st.queue.buf, data, j);
    }
    Played(SpState(Queue(q, prevBufLen + Frames(data)), st.playing),
           (prevBufLen + HalfQuantum) as real / sampleRate as real * 1000.0)
  }

  /** `playing()` (source lines 547-549): something is still queued. */
  predicate Playing<S>(st: SpState<S>): (r: bool)
    ensures Inv(st) && st.playing ==> r
    ensures QueueInv(st.queue) && !r ==> Len(st.queue.buf) == 0
  {
    |st.queue.buf| > 0
  }

  /** The ScriptProcessor's nominal latency (source lines 555-557). */
  function Latency(sampleRate: nat): (ms: real)
    requires sampleRate > 0
    ensures ms > 0.0
    ensures ms * sampleRate as real == 2048000.0
  {
    HalfQuantum as real / sampleRate as real * 1000.0
  }

  /** On an empty queue `play` reports exactly the nominal latency, and
      afterwards the backend reports that it is playing. */
  lemma PlayOnEmptyQueue<S>(st: SpState<S>, data: Block<S>, sampleRate: nat)
    requires Inv(st) && WellFormed(data) && sampleRate > 0 && |st.queue.buf| == 0
    ensures Play(st, data, sampleRate).latencyMs == Latency(sampleRate)
    ensures Playing(Play(st, data, sampleRate).state)
  {
  }

  /** The start gate (source lines 467-469). */
  predicate Starts<S>(st: SpState<S>, outLen: nat)
  {
    st.playing || st.queue.bufLen >= 2 * outLen
  }

  /** Queue a sequence of blocks with `play`, one after another. */
  function PlayAll<S>(st: SpState<S>, blocks: seq<Block<S>>, sampleRate: nat): (r: SpState<S>)
    requires Inv(st) && AllWellFormed(blocks) && sampleRate > 0
    ensures Inv(r)
    decreases |blocks|
  {
    if |blocks| == 0 then st
    else PlayAll(Play(st, blocks[0], sampleRate).state, blocks[1..], sampleRate)
  }

  /** Producer pushes never start playback by themselves: after any number
      of `play` calls on an idle backend the gate is still closed, the queue
      holds every block in order, and the first callback starts draining
      exactly when at least twice its output length is queued. */
  lemma {:induction false} GateAfterPlays<S>(st: SpState<S>, blocks: seq<Block<S>>, sampleRate: nat, outLen: nat)
    requires Inv(st) && !st.playing && AllWellFormed(blocks) && sampleRate > 0
    ensures var r := PlayAll(st, blocks, sampleRate);
      && !r.playing
      && r.queue.buf == st.queue.buf + blocks
      && (Starts(r, outLen) <==> Len(st.queue.buf + blocks) >= 2 * outLen)
    decreases |blocks|
  {
    if |blocks| == 0 {
      assert st.queue.buf + blocks == st.queue.buf;
    } else {
      var next := Play(st, blocks[0], sampleRate).state;
      GateAfterPlays(next, blocks[1..], sampleRate, outLen);
      assert next.queue.buf + blocks[1..] == st.queue.buf + blocks;
    }
  }

  /** The overflow loop (source lines 475-478): drop whole blocks from the
      front while at least `maxBuf` frames are queued. */
  function DropOverflow<S>(q: Queue<S>, maxBuf: nat): (r: Queue<S>)
    requires QueueInv(q) && maxBuf >= 1
    ensures QueueInv(r)
    ensures Len(r.buf) < maxBuf
    ensures |r.buf| <= |q.buf| && r.buf == q.buf[|q.buf| - |r.buf|..]
    ensures Len(q.buf) < maxBuf ==> r == q
    ensures |r.buf| < |q.buf| ==> Len(q.buf[|q.buf| - |r.buf| - 1..]) >= maxBuf
    decreases |q.buf|
  {
    if q.bufLen >= maxBuf then
      assert |q.buf| > 0;
      var rest := Queue(q.buf[1..], q.bufLen - Frames(q.buf[0]));
      var r := DropOverflow(rest, maxBuf);
      assert r.buf == q.buf[|q.buf| - |r.buf|..] by {
        assert q.buf[1..][|rest.buf| - |r.buf|..] == q.buf[|q.buf| - |r.buf|..];
      }
      assert |r.buf| < |rest.buf| ==> q.buf[|q.buf| - |r.buf| - 1..] == rest.buf[|rest.buf| - |r.buf| - 1..];
      assert |r.buf| == |rest.buf| ==> q.buf[|q.buf| - |r.buf| - 1..] == q.buf;
      r
    else
      q
  }

  /** Output channel `i` extended by the first `n` frames of its source
      channel in `b`: one `outData[i].set(…, rd)` per output channel. */
  function WriteFrames<S>(out: seq<seq<S>>, b: Block<S>, n: nat): (r: seq<seq<S>>)
    requires WellFormed(b) && n <= Frames(b)
    ensures |r| == |out|
    ensures forall i :: 0 <= i < |out| ==> r[i] == out[i] + Source(b, i)[..n]
  {
    seq(|out|, i requires 0 <= i < |out| => out[i] + Source(b, i)[..n])
  }

  /** What the copy loop has consumed so far: `rd` frames of `q` are written to
      `out`, and `cur` holds exactly the frames that follow. */
  ghost predicate DrainedSoFar<S>(q: seq<Block<S>>, cur: seq<Block<S>>, out: seq<seq<S>>, rd: nat)
    requires AllWellFormed(q) && AllWellFormed(cur)
  {
    && rd + Len(cur) == Len(q)
    && (forall i :: 0 <= i < |out| ==> out[i] == Stream(q, i)[..rd])
    && (forall j: nat :: Stream(cur, j) == Stream(q, j)[rd..])
  }

  lemma WellFormedTail<S>(q: seq<Block<S>>)
    requires AllWellFormed(q) && |q| > 0
    ensures AllWellFormed(q[1..])
  {
    assert forall k :: 0 <= k < |q| - 1 ==> q[1..][k] == q[k + 1];
  }

  lemma LenCons<S>(q: seq<Block<S>>)
    requires |q| > 0
    ensures Len(q) == Frames(q[0]) + Len(q[1..])
  {
  }

  /** One channel of one step: copying the first `n` frames of the front
      block extends the written prefix by them and leaves the rest of that
      block, then the later blocks. */
  lemma StepStream<S>(q: seq<Block<S>>, cur: seq<Block<S>>, rd: nat, n: nat, j: nat)
    requires AllWellFormed(q) && AllWellFormed(cur) && |cur| > 0 && n <= Frames(cur[0])
    requires rd <= |Stream(q, j)| && Stream(cur, j) == Stream(q, j)[rd..]
    ensures Stream(q, j)[..rd] + Source(cur[0], j)[..n] == Stream(q, j)[..rd + n]
    ensures Stream(q, j)[rd + n..] == Source(cur[0], j)[n..] + Stream(cur[1..], j)
  {
    var s, a, rest := Stream(q, j), Source(cur[0], j), Stream(cur[1..], j);
    assert s[rd..] == a + rest;
    assert s[rd..rd + n] == a[..n];
    assert s[..rd + n] == s[..rd] + s[rd..rd + n];
    assert s[rd + n..] == s[rd..][n..];
  }

  /** One step of the copy loop that uses the whole front block. */
  lemma DrainWholeBlock<S>(q: seq<Block<S>>, cur: seq<Block<S>>, out: seq<seq<S>>, rd: nat,
                            cur': seq<Block<S>>, out': seq<seq<S>>, rd': nat)
    requires AllWellFormed(q) && AllWellFormed(cur) && |cur| > 0
    requires DrainedSoFar(q, cur, out, rd)
    requires cur' == cur[1..] && out' == WriteFrames(out, cur[0], Frames(cur[0])) && rd' == rd + Frames(cur[0])
    ensures AllWellFormed(cur') && Len(cur') == Len(cur) - Frames(cur[0])
    ensures DrainedSoFar(q, cur', out', rd')
  {
    var b, n := cur[0], Frames(cur[0]);
    LenCons(cur);
    WellFormedTail(cur);
    forall j: nat
      ensures Stream(cur', j) == Stream(q, j)[rd + n..]
    {
      StepStream(q, cur, rd, n, j);
      SourceFrames(b, j);
    }
    forall i | 0 <= i < |out'|
      ensures out'[i] == Stream(q, i)[..rd + n]
    {
      StepStream(q, cur, rd, n, i);
      SourceFrames(b, i);
    }
  }

  /** One step of the copy loop that splits the front block after `n` frames. */
  lemma DrainSplitBlock<S>(q: seq<Block<S>>, cur: seq<Block<S>>, out: seq<seq<S>>, rd: nat, n: nat,
                            cur': seq<Block<S>>, out': seq<seq<S>>, rd': nat)
    requires AllWellFormed(q) && AllWellFormed(cur) && |cur| > 0 && n < Frames(cur[0])
    requires DrainedSoFar(q, cur, out, rd)
    requires cur' == [DropFrames(cur[0], n)] + cur[1..] && out' == WriteFrames(out, cur[0], n) && rd' == rd + n
    ensures AllWellFormed(cur') && Len(cur') == Len(cur) - n
    ensures DrainedSoFar(q, cur', out', rd')
  {
    var b, rest := cur[0], cur[1..];
    assert cur'[1..] == rest;
    assert forall k :: 0 < k < |cur'| ==> cur'[k] == rest[k - 1];
    LenCons(cur);
    LenCons(cur');
    forall j: nat
      ensures Stream(cur', j) == Stream(q, j)[rd + n..]
    {
      StepStream(q, cur, rd, n, j);
    }
    forall i | 0 <= i < |out'|
      ensures out'[i] == Stream(q, i)[..rd + n]
    {
      StepStream(q, cur, rd, n, i);
    }
  }

  /** One pass of the copy loop's body (source lines 483-507): copy the front
      block, or its first `remain` frames if it is longer, into the output. */
  /** What is left of `q` after a request for `outLen` frames: `cur` is a
      suffix of `q` whose front block may have lost its first frames (its
      channels kept), and every block removed whole was started while frames
      were still wanted, so an exhausted request never goes on to take an
      empty block. */
  ghost predicate Remains<S>(q: seq<Block<S>>, cur: seq<Block<S>>, outLen: nat)
  {
    && |cur| <= |q|
    && (|cur| > 0 ==> cur[1..] == q[|q| - |cur| + 1..] && |cur[0]| == |q[|q| - |cur|]|)
    && (|cur| < |q| ==> Len(q[..|q| - |cur| - 1]) < outLen)
  }

  /** The copy loop's view of `Remains`: while frames are still wanted the
      front block is untouched and `rd` counts exactly the blocks removed. */
  ghost predicate Consumed<S>(q: seq<Block<S>>, cur: seq<Block<S>>, rd: nat, remain: nat, outLen: nat)
  {
    && Remains(q, cur, outLen)
    && (remain > 0 ==> cur == q[|q| - |cur|..] && rd == Len(q[..|q| - |cur|]))
  }

  lemma ConsumedStep<S>(q: seq<Block<S>>, cur: seq<Block<S>>, rd: nat, remain: nat, outLen: nat,
                        cur': seq<Block<S>>, rd': nat, remain': nat)
    requires Consumed(q, cur, rd, remain, outLen) && rd + remain == outLen
    requires |cur| > 0 && remain > 0
    requires rd' == rd + Min(remain, Frames(cur[0])) && rd' + remain' == rd + remain
    requires Frames(cur[0]) <= remain ==> cur' == cur[1..]
    requires Frames(cur[0]) > remain ==>
      remain' == 0 && |cur'| == |cur| && |cur'[0]| == |cur[0]| && cur'[1..] == cur[1..]
    ensures Consumed(q, cur', rd', remain', outLen)
  {
    var k := |q| - |cur|;
    if Frames(cur[0]) <= remain {
      assert q[k..][1..] == q[k + 1..];
      assert q[..k + 1] == q[..k] + [q[k]];
      LenAppend(q[..k], q[k]);
      assert q[..k + 1][..k] == q[..k];
      if |cur'| > 0 {
        assert q[k + 1..][1..] == q[k + 2..];
      }
    }
  }

  method DrainBlock<S>(ghost q: seq<Block<S>>, cur: Queue<S>, out: seq<seq<S>>, rd: nat, remain: nat)
    returns (cur': Queue<S>, out': seq<seq<S>>, rd': nat, remain': nat)
    requires AllWellFormed(q) && QueueInv(cur) && |cur.buf| > 0 && remain > 0
    requires DrainedSoFar(q, cur.buf, out, rd)
    ensures QueueInv(cur') && DrainedSoFar(q, cur'.buf, out', rd')
    ensures |out'| == |out| && rd' + remain' == rd + remain
    ensures remain' + |cur'.buf| < remain + |cur.buf|
    ensures rd' == rd + Min(remain, Frames(cur.buf[0]))
    ensures Frames(cur.buf[0]) <= remain ==> cur'.buf == cur.buf[1..]
    ensures Frames(cur.buf[0]) > remain ==>
      && remain' == 0 && |cur'.buf| == |cur.buf|
      && cur'.buf[0] == DropFrames(cur.buf[0], remain) && cur'.buf[1..] == cur.buf[1..]
  {
    var inBuf := cur.buf[0];
    if Frames(inBuf) <= remain {
      // Use this entire block.
      var n := Frames(inBuf);
      out' := WriteFrames(out, inBuf, n);
      cur' := Queue(cur.buf[1..], cur.bufLen - n);
      rd' := rd + n;
      remain' := remain - n;
      DrainWholeBlock(q, cur.buf, out, rd, cur'.buf, out', rd');
    } else {
      // The block is larger than what is left: use its front part.
      out' := WriteFrames(out, inBuf, remain);
      cur' := Queue([DropFrames(inBuf, remain)] + cur.buf[1..], cur.bufLen - remain);
      rd' := rd + remain;
      remain' := 0;
      DrainSplitBlock(q, cur.buf, out, rd, remain, cur'.buf, out', rd');
    }
  }

  /** The copy loop (source lines 481-508). `out[i]` is what the callback
      writes into output channel `i` from offset 0; `rd` frames are written. */
  method Drain<S>(q: Queue<S>, outChans: nat, outLen: nat) returns (q': Queue<S>, out: seq<seq<S>>, rd: nat)
    requires QueueInv(q)
    ensures QueueInv(q')
    ensures rd == Min(outLen, Len(q.buf))
    ensures Len(q'.buf) == Len(q.buf) - rd
    ensures |out| == outChans
    ensures forall i :: 0 <= i < outChans ==> out[i] == Stream(q.buf, i)[..rd]
    ensures forall j: nat :: Stream(q'.buf, j) == Stream(q.buf, j)[rd..]
    ensures rd < outLen ==> |q'.buf| == 0
    ensures Remains(q.buf, q'.buf, outLen)
  {
    rd := 0;
    var remain: nat := outLen;
    out := seq(outChans, i => []);
    q' := q;
    assert q.buf[0..] == q.buf && q.buf[..0] == [];
    while remain > 0 && |q'.buf| > 0
      invariant QueueInv(q')
      invariant rd + remain == outLen
      invariant |out| == outChans
      invariant DrainedSoFar(q.buf, q'.buf, out, rd)
      invariant Consumed(q.buf, q'.buf, rd, remain, outLen)
      decreases remain + |q'.buf|
    {
      ghost var cur, rd0, remain0 := q'.buf, rd, remain;
      q', out, rd, remain := DrainBlock(q.buf, q', out, rd, remain);
      ConsumedStep(q.buf, cur, rd0, remain0, outLen, q'.buf, rd, remain);
    }
    assert rd + Len(q'.buf) == Len(q.buf);
    assert |q'.buf| == 0 ==> Len(q'.buf) == 0;
  }

  /** The whole processing callback (source lines 460-513). */
  method Process<S>(st: SpState<S>, sampleRate: nat, outChans: nat, outLen: nat)
    returns (st': SpState<S>, out: seq<seq<S>>)
    requires Inv(st) && sampleRate >= 2 && outChans >= 1
    ensures Inv(st')
    ensures |out| == outChans
    ensures !Starts(st, outLen) ==> st' == st && forall i :: 0 <= i < outChans ==> out[i] == []
    ensures Starts(st, outLen) ==>
      var d := DropOverflow(st.queue, MaxBuf(sampleRate));
      var rd := Min(outLen, Len(d.buf));
      && (forall i :: 0 <= i < outChans ==> out[i] == Stream(d.buf, i)[..rd])
      && (forall j: nat :: Stream(st'.queue.buf, j) == Stream(d.buf, j)[rd..])
      && st'.playing == (|st'.queue.buf| > 0)
      && Remains(d.buf, st'.queue.buf, outLen)
  {
    var playing := st.playing;
    if !playing && st.queue.bufLen >= outLen * 2 {
      playing := true;
    }
    if !playing {
      return st, seq(outChans, i => []);
    }
    var d := DropOverflow(st.queue, MaxBuf(sampleRate));
    var q', rd;
    q', out, rd := Drain(d, outChans, outLen);
    // Playing stops once the queue runs dry.
    st' := SpState(q', |q'.buf| > 0);
  }

  /** Whatever the callback plays or drops comes from the front of the queue,
      in order: every channel's remaining stream is a suffix of the old one,
      and what was played is the start of the part that survived the drop. */
  lemma ProcessConsumesFront<S>(st: SpState<S>, sampleRate: nat, outLen: nat, j: nat)
    requires Inv(st) && sampleRate >= 2
    ensures var d := DropOverflow(st.queue, MaxBuf(sampleRate));
      var dropped := Len(st.queue.buf) - Len(d.buf);
      && 0 <= dropped <= Len(st.queue.buf)
      && Stream(d.buf, j) == Stream(st.queue.buf, j)[dropped..]
  {
    var d := DropOverflow(st.queue, MaxBuf(sampleRate));
    var k := |st.queue.buf| - |d.buf|;
    StreamSuffix(st.queue.buf, k, j);
  }
}

=== FILE: selector.dfy ===
/** Backend selection (`createAudioPlaybackNoBidir`, source lines 592-647):
    a capability record filled on the first call and reused forever after,
    then a choice among the five playback types from the demanded type, the
    preferred type, the capability record and the Firefox bug flag. Which
    browser facilities exist and the user agent are inputs. */
module Selector {
  import opened Options
  import Util

  /** `AudioPlaybackType`. */
  datatype Kind = SharedAwp | SharedSp | Ab | Awp | Sp

  /** The capability record `playCache`: kinds marked `true`. A kind that
      was never written reads as `undefined`, which is falsy. */
  type Caps = map<Kind, bool>

  predicate Usable(caps: Caps, k: Kind)
  {
    k in caps && caps[k]
  }

  /** What the probe looks at: whether `AudioWorkletNode` is defined and
      whether the context has `createScriptProcessor`. */
  datatype Facilities = Facilities(audioWorklet: bool, scriptProcessor: bool)

  /** `AudioPlaybackOptions`; `bufferSize` is in milliseconds. */
  datatype PlaybackOptions = PlaybackOptions(preferredType: Option<Kind>, demandedType: Option<Kind>, bufferSize: Option<real>)

  /** The process-wide cache `playCache`, and how many times it has been filled. */
  datatype CacheState = CacheState(playCache: Option<Caps>, probes: nat)

  /** The constructed backend, with the buffer size handed to the timeline one. */
  datatype Backend = SharedAwpBackend | AwpBackend | AbBackend(bufferSize: real) | SpBackend

  /** The probe (source lines 602-613). */
  function Probe(f: Facilities): (caps: Caps)
    ensures Usable(caps, Ab)
    ensures Usable(caps, SharedAwp) <==> f.audioWorklet
    ensures Usable(caps, Awp) <==> f.audioWorklet
    ensures Usable(caps, Sp) <==> f.scriptProcessor
    ensures !Usable(caps, SharedSp)
  {
    var caps := map[Ab := true];
    var caps := if f.audioWorklet then caps[SharedAwp := true][Awp := true] else caps;
    if f.scriptProcessor then caps[Sp := true] else caps
  }

  /** Fill the cache if it is still null; otherwise leave it alone. */
  function EnsureCache(s: CacheState, f: Facilities): (r: CacheState)
    ensures r.playCache.Some?
    ensures s.playCache.Some? ==> r == s
    ensures s.playCache.None? ==> r.playCache == Some(Probe(f)) && r.probes == s.probes + 1
  {
    if s.playCache.None? then CacheState(Some(Probe(f)), s.probes + 1) else s
  }

  /** The choice (source lines 615-628). */
  function Choose(opts: PlaybackOptions, caps: Caps, unreliableAudioBuffers: bool): (k: Kind)
    ensures opts.demandedType.Some? ==> k == opts.demandedType.value
    ensures opts.demandedType.None? && opts.preferredType.Some? && Usable(caps, opts.preferredType.value) ==>
      k == opts.preferredType.value
    ensures opts.demandedType.None? && (opts.preferredType.None? || !Usable(caps, opts.preferredType.value)) ==>
      k == if !unreliableAudioBuffers then Ab else if Usable(caps, SharedAwp) then SharedAwp else Sp
  {
    var choice := opts.demandedType;
    var choice :=
      if choice.None? && opts.preferredType.Some? && Usable(caps, opts.preferredType.value)
      then opts.preferredType else choice;
    if choice.Some? then choice.value
    else if !unreliableAudioBuffers then Ab
    else if Usable(caps, SharedAwp) then SharedAwp
    else Sp
  }

  /** `opts.bufferSize || 50`: an absent or zero buffer size means 50 ms. */
  function BufferSize(opts: PlaybackOptions): (ms: real)
    ensures opts.bufferSize.Some? && opts.bufferSize.value != 0.0 ==> ms == opts.bufferSize.value
    ensures opts.bufferSize.None? || opts.bufferSize.value == 0.0 ==> ms == 50.0
  {
    if opts.bufferSize.Some? && opts.bufferSize.value != 0.0 then opts.bufferSize.value else 50.0
  }

  /** Construction (source lines 630-646): anything but the worklet and
      timeline kinds, `"shared-sp"` included, builds the ring-buffer backend.
      The ring buffer's constructor calls `createScriptProcessor`, and the
      worklet backends' awaited `init` creates an `AudioWorkletNode`; without
      that facility the call rejects (`None`). */
  function Construct(k: Kind, f: Facilities, opts: PlaybackOptions): (b: Option<Backend>)
    ensures b == Some(SharedAwpBackend) <==> k == SharedAwp && f.audioWorklet
    ensures b == Some(AwpBackend) <==> k == Awp && f.audioWorklet
    ensures k == Ab <==> b == Some(AbBackend(BufferSize(opts)))
    ensures b.Some? && b.value.AbBackend? ==> k == Ab
    ensures b == Some(SpBackend) <==> (k == Sp || k == SharedSp) && f.scriptProcessor
    ensures b.None? <==>
      ((k == SharedAwp || k == Awp) && !f.audioWorklet) || ((k == Sp || k == SharedSp) && !f.scriptProcessor)
  {
    match k
    case SharedAwp => if f.audioWorklet then Some(SharedAwpBackend) else None
    case Awp => if f.audioWorklet then Some(AwpBackend) else None
    case Ab => Some(AbBackend(BufferSize(opts)))
    case _ => if f.scriptProcessor then Some(SpBackend) else None
  }

  /** One call of `createAudioPlaybackNoBidir`, for a browser with user agent
      `ua` and facilities `f`: the cache afterwards, and the backend, or
      `None` when the call rejects. */
  function Create(s: CacheState, f: Facilities, ua: string, opts: PlaybackOptions): (r: (CacheState, Option<Backend>))
    ensures r.0.playCache.Some?
    ensures r.0.probes == s.probes + (if s.playCache.None? then 1 else 0)
    ensures s.playCache.Some? ==> r.0 == s
    ensures opts.demandedType == Some(Ab) ==> r.1 == Some(AbBackend(BufferSize(opts)))
    ensures opts.demandedType == Some(Awp) ==> r.1 == if f.audioWorklet then Some(AwpBackend) else None
    ensures opts.demandedType.None? && opts.preferredType.None? && !Util.Contains(ua, "Firefox") ==>
      r.1 == Some(AbBackend(BufferSize(opts)))
    ensures r.1 == Some(SpBackend) ==> f.scriptProcessor
    ensures r.1 == Some(AwpBackend) || r.1 == Some(SharedAwpBackend) ==> f.audioWorklet
    ensures r.1.None? ==> !f.audioWorklet || !f.scriptProcessor
  {
    var s' := EnsureCache(s, f);
    (s', Construct(Choose(opts, s'.playCache.value, Util.BugUnreliableAudioBuffers(ua)), f, opts))
  }

  /** `"awp"` is never chosen unless it is demanded or preferred. */
  lemma AwpNeverDefault(opts: PlaybackOptions, caps: Caps, unreliableAudioBuffers: bool)
    requires opts.demandedType != Some(Awp) && opts.preferredType != Some(Awp)
    ensures Choose(opts, caps, unreliableAudioBuffers) != Awp
  {
  }

  /** On Firefox without audio worklets, a selection with neither preference
      nor demand builds the ring-buffer backend, whether or not the
      capability record was filled by an earlier selection; without
      `createScriptProcessor` as well, it rejects. */
  lemma FirefoxFallsBackToRingBuffer(s: CacheState, f: Facilities, ua: string, bufferSize: Option<real>)
    requires s.playCache.None? || s.playCache == Some(Probe(f))
    requires !f.audioWorklet && Util.Contains(ua, "Firefox")
    ensures f.scriptProcessor ==> Create(s, f, ua, PlaybackOptions(None, None, bufferSize)).1 == Some(SpBackend)
    ensures !f.scriptProcessor ==> Create(s, f, ua, PlaybackOptions(None, None, bufferSize)).1.None?
  {
  }

  /** Repeated selections: the capability record is probed once, on the first
      call, and never again. */
  function CreateAll(s: CacheState, f: Facilities, ua: string, requests: seq<PlaybackOptions>): (r: (CacheState, seq<Option<Backend>>))
    ensures |r.1| == |requests|
    decreases |requests|
  {
    if |requests| == 0 then (s, [])
    else
      var (s', b) := Create(s, f, ua, requests[0]);
      var (s'', bs) := CreateAll(s', f, ua, requests[1..]);
      (s'', [b] + bs)
  }

  lemma {:induction false} ProbedOnce(s: CacheState, f: Facilities, ua: string, requests: seq<PlaybackOptions>)
    requires s.playCache.None? && s.probes == 0 && |requests| > 0
    ensures CreateAll(s, f, ua, requests).0.probes == 1
    ensures CreateAll(s, f, ua, requests).0.playCache == Some(Probe(f))
  {
    var s' := Create(s, f, ua, requests[0]).0;
    CachedNeverProbes(s', f, ua, requests[1..]);
  }

  /** Once the cache is filled, further selections neither probe nor change
      it, and the same options always give the same backend. */
  lemma {:induction false} CachedNeverProbes(s: CacheState, f: Facilities, ua: string, requests: seq<PlaybackOptions>)
    requires s.playCache.Some?
    ensures CreateAll(s, f, ua, requests).0 == s
    ensures forall k :: 0 <= k < |requests| ==>
      CreateAll(s, f, ua, requests).1[k] == Create(s, f, ua, requests[k]).1
    decreases |requests|
  {
    if |requests| > 0 {
      CachedNeverProbes(s, f, ua, requests[1..]);
      var rest := CreateAll(s, f, ua, requests[1..]).1;
      assert CreateAll(s, f, ua, requests).1 == [Create(s, f, ua, requests[0]).1] + rest;
      forall k | 1 <= k < |requests|
        ensures CreateAll(s, f, ua, requests).1[k] == Create(s, f, ua, requests[k]).1
      {
        assert requests[1..][k - 1] == requests[k];
      }
    }
  }
}

=== FILE: timeline.dfy ===
/** The immediate-timeline backend (`AudioPlaybackAB`): every block is
    scheduled on the audio context's clock at the time the previous block
    ends, or, when that time has already passed, one buffer-size from now.
    The clock (`currentTime`, in seconds) and the sample rate are inputs. */
module Timeline {
  import opened Blocks
  import opened Options

  /** Configured buffer size in milliseconds, and `_nextTime` in seconds. */
  datatype Ab = Ab(bufferSize: real, nextTime: real)

  /** The constructor: nothing scheduled yet (`_nextTime = -1`). */
  function New(bufferSize: real): (ab: Ab)
    ensures ab.bufferSize == bufferSize && ab.nextTime < 0.0
  {
    Ab(bufferSize, -1.0)
  }

  /** Duration of a block of `frames` frames, in seconds. */
  function Duration(frames: nat, sampleRate: real): real
    requires sampleRate > 0.0
  {
    frames as real / sampleRate
  }

  /** The start time chosen for the next block (source lines 171-174). */
  function StartTime(ab: Ab, currentTime: real): real
  {
    if ab.nextTime < currentTime then currentTime + ab.bufferSize / 1000.0 else ab.nextTime
  }

  /** `play` (source lines 161-178): schedule the block and return, in
      milliseconds, how far in the future it starts. `createBuffer` refuses
      a buffer of zero frames, and `start` refuses a negative start time
      (possible with a negative buffer size); either throws before
      `_nextTime` moves: that call is `None`, and the backend keeps its state. */
  function Play(ab: Ab, frames: nat, sampleRate: real, currentTime: real): (r: Option<Played<Ab>>)
    requires sampleRate > 0.0
    ensures r.None? <==> frames == 0 || StartTime(ab, currentTime) < 0.0
    ensures r.Some? ==>
      var p := r.value;
      && p.state.bufferSize == ab.bufferSize
      && p.state.nextTime == currentTime + p.latencyMs / 1000.0 + Duration(frames, sampleRate)
      && (ab.nextTime >= currentTime ==> currentTime + p.latencyMs / 1000.0 == ab.nextTime)
      && (ab.nextTime < currentTime ==> p.latencyMs == ab.bufferSize)
      && (ab.bufferSize >= 0.0 ==> p.latencyMs >= 0.0 && currentTime + p.latencyMs / 1000.0 >= ab.nextTime)
  {
    var st := StartTime(ab, currentTime);
    if frames == 0 || st < 0.0 then None
    else
      Some(Played(Ab(ab.bufferSize, st + Duration(frames, sampleRate)), (st - currentTime) * 1000.0))
  }

  /** `playing()` exactly as written (source lines 180-182): true when the
      scheduled audio has already run out. */
  predicate PlayingAsWritten(ab: Ab, currentTime: real): (r: bool)
    ensures ab.bufferSize >= 0.0 ==> (r <==> StartTime(ab, currentTime) > ab.nextTime)
  {
    ab.nextTime < currentTime
  }

  /** `playing()` as its documentation describes it (source lines 65-70):
      true when audio posted now would be appended to audio already queued. */
  predicate Playing(ab: Ab, currentTime: real): (r: bool)
    ensures r <==> !PlayingAsWritten(ab, currentTime)
  {
    currentTime <= ab.nextTime
  }

  /** The documented meaning holds of the corrected predicate: it is true
      exactly when the next `play` starts where the queued audio ends. */
  lemma PlayingMeansAppended(ab: Ab, currentTime: real)
    requires ab.bufferSize >= 0.0
    ensures Playing(ab, currentTime) <==> StartTime(ab, currentTime) == ab.nextTime
  {
  }

  /** The code as written reports the opposite: right after a block of
      positive length is scheduled (the audio clock is never negative),
      audio posted at the same instant is appended after it, yet
      `playing()` answers false. */
  lemma PlayingAsWrittenIsInverted(bufferSize: real, frames: nat, sampleRate: real, currentTime: real)
    requires sampleRate > 0.0 && bufferSize >= 0.0 && frames > 0 && currentTime >= 0.0
    ensures var ab := Play(New(bufferSize), frames, sampleRate, currentTime).value.state;
      && StartTime(ab, currentTime) == ab.nextTime
      && !PlayingAsWritten(ab, currentTime)
      && Playing(ab, currentTime)
  {
  }

  /** One request: a block of `frames` frames submitted at `currentTime`. */
  datatype Request = Request(frames: nat, currentTime: real)

  /** A block that `play` scheduled: its start time and its length. */
  datatype Scheduled = Scheduled(start: real, frames: nat)

  /** The blocks a sequence of `play` calls schedules, in order. A call that
      throws schedules nothing and leaves the backend as it was. */
  function Schedule(ab: Ab, reqs: seq<Request>, sampleRate: real): (sched: seq<Scheduled>)
    requires sampleRate > 0.0
    ensures |sched| <= |reqs|
    ensures forall k :: 0 <= k < |sched| ==> sched[k].frames > 0
    decreases |reqs|
  {
    if |reqs| == 0 then []
    else match Play(ab, reqs[0].frames, sampleRate, reqs[0].currentTime)
      case None => Schedule(ab, reqs[1..], sampleRate)
      case Some(r) =>
        [Scheduled(reqs[0].currentTime + r.latencyMs / 1000.0, reqs[0].frames)] + Schedule(r.state, reqs[1..], sampleRate)
  }

  /** An empty block changes nothing about what is scheduled afterwards. */
  lemma EmptyBlockSchedulesNothing(ab: Ab, t: real, reqs: seq<Request>, sampleRate: real)
    requires sampleRate > 0.0
    ensures Schedule(ab, [Request(0, t)] + reqs, sampleRate) == Schedule(ab, reqs, sampleRate)
  {
    assert ([Request(0, t)] + reqs)[1..] == reqs;
  }

  /** Every block of the sequence starts no earlier than the state's
      `_nextTime`, whatever the clock readings are. */
  lemma {:induction false} StartsAfterNext(ab: Ab, reqs: seq<Request>, sampleRate: real, k: nat)
    requires sampleRate > 0.0 && ab.bufferSize >= 0.0 && k < |Schedule(ab, reqs, sampleRate)|
    ensures Schedule(ab, reqs, sampleRate)[k].start >= ab.nextTime
    decreases |reqs|
  {
    match Play(ab, reqs[0].frames, sampleRate, reqs[0].currentTime)
    case None =>
      StartsAfterNext(ab, reqs[1..], sampleRate, k);
    case Some(r) =>
      if k > 0 {
        StartsAfterNext(r.state, reqs[1..], sampleRate, k - 1);
      }
  }

  /** Forward-only, non-overlapping scheduling: each scheduled block starts
      no earlier than the previous one ends. The clock need not even be
      monotone; only a non-negative buffer size is needed. */
  lemma {:induction false} NoOverlap(ab: Ab, reqs: seq<Request>, sampleRate: real, k: nat)
    requires sampleRate > 0.0 && ab.bufferSize >= 0.0 && k + 1 < |Schedule(ab, reqs, sampleRate)|
    ensures var sched := Schedule(ab, reqs, sampleRate);
      sched[k + 1].start >= sched[k].start + Duration(sched[k].frames, sampleRate)
    decreases |reqs|
  {
    match Play(ab, reqs[0].frames, sampleRate, reqs[0].currentTime)
    case None =>
      NoOverlap(ab, reqs[1..], sampleRate, k);
    case Some(r) =>
      if k == 0 {
        StartsAfterNext(r.state, reqs[1..], sampleRate, 0);
      } else {
        NoOverlap(r.state, reqs[1..], sampleRate, k - 1);
      }
  }
}

=== FILE: util.dfy ===
/** Environment predicates (`util.ts`): browser detection by substring tests
    on the user-agent string, the bug-workaround flags derived from it, and
    the per-stream, per-MIME-type memo of whether MediaRecorder works. The
    user-agent string, the presence of `MediaRecorder`, its answer to
    `isTypeSupported` and the outcome of a trial recording are inputs. */
module Util {
  import opened Options

  /** `p` occurs in `s` starting at index `i`. */
  predicate OccursAt(s: string, p: string, i: int)
  {
    0 <= i && i + |p| <= |s| && s[i..i + |p|] == p
  }

  ghost predicate Contains(s: string, p: string)
  {
    exists i :: OccursAt(s, p, i)
  }

  /** `s.indexOf(p, k)`: the first occurrence of `p` at or after `k`, or -1. */
  function IndexOfFrom(s: string, p: string, k: nat): (r: int)
    ensures r == -1 || (k <= r && OccursAt(s, p, r))
    ensures forall i :: k <= i && (r == -1 || i < r) ==> !OccursAt(s, p, i)
    decreases |s| - k
  {
    if k + |p| > |s| then -1
    else if s[k..k + |p|] == p then k
    else IndexOfFrom(s, p, k + 1)
  }

  /** `s.indexOf(p) >= 0`. */
  function Has(s: string, p: string): (r: bool)
    ensures r <==> Contains(s, p)
  {
    var i := IndexOfFrom(s, p, 0);
    assert i >= 0 ==> OccursAt(s, p, i);
    i >= 0
  }

  /** `isChrome` (source lines 21-24): Edge, Opera, Brave and the rest
      all say "Chrome". */
  function IsChrome(ua: string): (r: bool)
    ensures r <==> Contains(ua, "Chrome")
  {
    Has(ua, "Chrome")
  }

  /** `isSafari` (source lines 30-33): Chrome also claims to be Safari. */
  function IsSafari(ua: string): (r: bool)
    ensures r <==> Contains(ua, "Safari") && !Contains(ua, "Chrome")
  {
    Has(ua, "Safari") && !IsChrome(ua)
  }

  /** `isFirefox` (source lines 38-40). */
  function IsFirefox(ua: string): (r: bool)
    ensures r <==> Contains(ua, "Firefox")
  {
    Has(ua, "Firefox")
  }

  /** `isAndroid` (source lines 46-48). */
  function IsAndroid(ua: string): (r: bool)
    ensures r <==> Contains(ua, "Android")
  {
    Has(ua, "Android")
  }

  /** No browser is both Safari and Chrome. */
  lemma SafariIsNotChrome(ua: string)
    ensures !(IsSafari(ua) && IsChrome(ua))
  {
  }

  /** A user agent naming both browsers is Chrome and not Safari. */
  lemma ChromeMasksSafari(ua: string)
    requires Contains(ua, "Chrome") && Contains(ua, "Safari")
    ensures IsChrome(ua) && !IsSafari(ua)
  {
  }

  /** `bugNeedSharedNodes` (source lines 56-58): no browser needs them now. */
  function BugNeedSharedNodes(): (r: bool)
    ensures !r
  {
    false
  }

  /** `bugPreferMediaRecorderPCM` (source lines 65-67). */
  function BugPreferMediaRecorderPCM(ua: string): (r: bool)
    ensures r <==> Contains(ua, "Chrome") && !Contains(ua, "Android")
  {
    IsChrome(ua) && !IsAndroid(ua)
  }

  /** `bugUnreliableAudioBuffers` (source lines 111-113). */
  function BugUnreliableAudioBuffers(ua: string): (r: bool)
    ensures r <==> Contains(ua, "Firefox")
  {
    IsFirefox(ua)
  }

  /** `bugNeedLargeBuffers` (source lines 120-122). */
  function BugNeedLargeBuffers(ua: string): (r: bool)
    ensures r <==> Contains(ua, "Chrome")
  {
    IsChrome(ua)
  }

  // ---------------------------------------------------------------------
  // supportsMediaRecorder

  /** What the environment answers: whether `MediaRecorder` exists at all,
      and the user agent. */
  datatype Env = Env(hasMediaRecorder: bool, ua: string)

  /** The `rteSupportsMediaRecorder` records of all streams, by stream id. */
  type Memo = map<nat, map<string, bool>>

  datatype MemoEntry = Absent | Recorded(supported: bool)

  function Lookup(memo: Memo, stream: nat, mimeType: string): MemoEntry
  {
    if stream in memo && mimeType in memo[stream] then Recorded(memo[stream][mimeType]) else Absent
  }

  /** The answer, the memo afterwards, and whether a trial recording was made. */
  datatype Answer = Answer(supported: bool, memo: Memo, probed: bool)

  /** The gate at source lines 80-85. As written the condition parses as
      `noMediaRecorder || (!typeSupported && android)`. */
  predicate Rejects(env: Env, typeSupported: bool): (r: bool)
    ensures r <==> !env.hasMediaRecorder || (!typeSupported && Contains(env.ua, "Android"))
    ensures env.hasMediaRecorder && typeSupported ==> !r
  {
    !env.hasMediaRecorder || (!typeSupported && IsAndroid(env.ua))
  }

  /** `supportsMediaRecorder(ms, mimeType)` (source lines 76-105). `stream` is
      `ms` (`None` for null), `typeSupported` is
      `MediaRecorder.isTypeSupported(mimeType)` and `trialThrows` says whether
      starting and stopping a trial recorder throws. */
  function SupportsMediaRecorder(env: Env, typeSupported: bool, stream: Option<nat>, mimeType: string,
                                 memo: Memo, trialThrows: bool): (r: Answer)
    ensures Rejects(env, typeSupported) ==> !r.supported && !r.probed && r.memo == memo
    ensures !Rejects(env, typeSupported) && stream.None? ==> r.supported && !r.probed && r.memo == memo
    ensures stream.Some? && !Rejects(env, typeSupported) ==>
      var id := stream.value;
      && (Lookup(memo, id, mimeType).Recorded? ==>
            !r.probed && r.supported == Lookup(memo, id, mimeType).supported)
      && (Lookup(memo, id, mimeType).Absent? ==> r.probed && r.supported == !trialThrows)
      && Lookup(r.memo, id, mimeType) == Recorded(r.supported)
    ensures forall s: nat, m: string :: (stream != Some(s) || m != mimeType) ==> Lookup(r.memo, s, m) == Lookup(memo, s, m)
  {
    if Rejects(env, typeSupported) then Answer(false, memo, false)
    else if stream.None? then Answer(true, memo, false)
    else
      var id := stream.value;
      var record := if id in memo then memo[id] else map[];
      var memo' := memo[id := record];
      if mimeType in record then Answer(record[mimeType], memo', false)
      else Answer(!trialThrows, memo'[id := record[mimeType := !trialThrows]], true)
  }

  /** Because of the precedence, an unsupported type passes the gate on a
      browser that is not Android. */
  lemma UnsupportedTypePassesOffAndroid(env: Env, mimeType: string, memo: Memo, trialThrows: bool)
    requires env.hasMediaRecorder && !IsAndroid(env.ua)
    ensures SupportsMediaRecorder(env, false, None, mimeType, memo, trialThrows).supported
  {
  }

  /** Once an answer is memoised, asking again gives the same answer without
      another trial, whatever a trial would now do. */
  lemma MemoIsStable(env: Env, typeSupported: bool, stream: nat, mimeType: string, memo: Memo,
                     trialThrows: bool, laterThrows: bool)
    requires !Rejects(env, typeSupported)
    ensures var first := SupportsMediaRecorder(env, typeSupported, Some(stream), mimeType, memo, trialThrows);
      var second := SupportsMediaRecorder(env, typeSupported, Some(stream), mimeType, first.memo, laterThrows);
      && second.supported == first.supported
      && !second.probed
      && Lookup(second.memo, stream, mimeType) == Lookup(first.memo, stream, mimeType)
  {
  }
}

=== FILE: worklet.dfy ===
/** The two rendering-thread backends (`AudioPlaybackAWP` and
    `AudioPlaybackSharedAWP`). Both push blocks to a worklet over a message
    port and, getting no feedback from it, estimate the end of the queued
    audio from the wall clock (`performance.now()`, in milliseconds, passed
    in as `now`). Message ports are modelled by the trace of messages posted
    on them. */
module Worklet {
  import opened Blocks
  import opened Options

  /** The fixed allowance for the worklet's own buffering, in milliseconds. */
  const Slack: real := 50.0

  /** Duration of a block of `frames` frames, in milliseconds. */
  function DurationMs(frames: nat, sampleRate: real): real
    requires sampleRate > 0.0
  {
    frames as real / sampleRate * 1000.0
  }

  /** The end-time estimate shared by both backends (source lines 259-265 and
      380-384): the new `_endTime` and the latency that `play` returns. */
  function Estimate(endTime: real, frames: nat, sampleRate: real, now: real): (r: Played<real>)
    requires sampleRate > 0.0
    ensures r.latencyMs > 0.0
    ensures endTime > now ==> r.latencyMs == endTime - now
    ensures endTime <= now ==> r.latencyMs == Slack
    ensures r.state == now + r.latencyMs + DurationMs(frames, sampleRate)
    ensures r.state >= endTime + DurationMs(frames, sampleRate)
  {
    var time := DurationMs(frames, sampleRate);
    var endTime' := if endTime > now then endTime + time else now + Slack + time;
    Played(endTime', endTime' - time - now)
  }

  /** `playing()` of both backends (source lines 268-270 and 387-389). */
  predicate Playing(endTime: real, now: real)
  {
    endTime > now
  }

  /** The documented meaning of `playing()`: it holds exactly when a block
      posted now is appended at the current estimated end. */
  lemma PlayingMeansAppended(endTime: real, frames: nat, sampleRate: real, now: real)
    requires sampleRate > 0.0
    ensures Playing(endTime, now) <==>
      Estimate(endTime, frames, sampleRate, now).state == endTime + DurationMs(frames, sampleRate)
  {
  }

  /** After `play`, the backend reports playing for at least the block's own
      duration, and for exactly the estimated latency plus that duration. */
  lemma PlayingAfterPlay(endTime: real, frames: nat, sampleRate: real, now: real, t: real)
    requires sampleRate > 0.0
    ensures var r := Estimate(endTime, frames, sampleRate, now);
      Playing(r.state, t) <==> t < now + r.latencyMs + DurationMs(frames, sampleRate)
    ensures now <= t < now + DurationMs(frames, sampleRate) ==>
      Playing(Estimate(endTime, frames, sampleRate, now).state, t)
  {
  }

  /** Messages posted on a worklet port: a block of samples, an `{c:"in"}`
      registration of a further port, `{c:"stop"}` or `{c:"done"}`. */
  datatype Msg<S, P> = Data(block: Block<S>) | In(port: P) | Stop | Done

  // ---------------------------------------------------------------------
  // Dedicated worklet (`AudioPlaybackAWP`)

  /** `_worklet` being set, whether `_input` is still connected to it, the
      messages posted to it, and `_endTime`. */
  datatype Awp<S, P> = Awp(worklet: bool, connected: bool, posted: seq<Msg<S, P>>, endTime: real)

  /** The constructor (source lines 216-222): no worklet, no input. */
  function NewAwp<S, P>(): (a: Awp<S, P>)
    ensures !a.worklet && !a.connected && a.posted == []
  {
    Awp(false, false, [], -1.0)
  }

  /** `init` (source lines 227-247), reduced to creating the worklet and
      connecting the constant-source input to it. */
  function AwpInit<S, P>(a: Awp<S, P>): (r: Awp<S, P>)
    ensures r.worklet && r.connected && r.posted == a.posted && r.endTime == a.endTime
  {
    a.(worklet := true, connected := true)
  }

  /** `play` (source lines 253-266). Before `init` the worklet is null and
      the post throws (`None`), leaving the state untouched. */
  function AwpPlay<S, P>(a: Awp<S, P>, data: Block<S>, sampleRate: real, now: real): (r: Option<Played<Awp<S, P>>>)
    requires WellFormed(data) && sampleRate > 0.0
    ensures r.None? <==> !a.worklet
    ensures r.Some? ==>
      && r.value.state.posted == a.posted + [Data(data)]
      && r.value.state.worklet && r.value.state.connected == a.connected
      && r.value.latencyMs > 0.0
      && Played(r.value.state.endTime, r.value.latencyMs) == Estimate(a.endTime, Frames(data), sampleRate, now)
  {
    if !a.worklet then None
    else
      var e := Estimate(a.endTime, Frames(data), sampleRate, now);
      Some(Played(a.(posted := a.posted + [Data(data)], endTime := e.state), e.latencyMs))
  }

  /** `pipeFrom` (source lines 275-277): hand the port to the worklet. */
  function AwpPipeFrom<S, P>(a: Awp<S, P>, port: P): (r: Option<Awp<S, P>>)
    ensures r.None? <==> !a.worklet
    ensures r.Some? ==> r.value == a.(posted := a.posted + [In(port)])
  {
    if !a.worklet then None else Some(a.(posted := a.posted + [In(port)]))
  }

  /** `close` (source lines 297-303): disconnect the input from the worklet,
      then tell the worklet it is done. Without a worklet nothing happens. The
      worklet reference is kept, so a second `close` disconnects an input
      that is no longer connected, which throws before `done` is posted. */
  function AwpClose<S, P>(a: Awp<S, P>): (r: Option<Awp<S, P>>)
    ensures r.None? <==> a.worklet && !a.connected
    ensures !a.worklet ==> r == Some(a)
    ensures r.Some? && a.worklet ==> r.value == a.(connected := false, posted := a.posted + [Done])
  {
    if !a.worklet then Some(a)
    else if a.connected then Some(a.(connected := false, posted := a.posted + [Done]))
    else None
  }

  /** One call on the dedicated backend. A call that throws leaves it as it was. */
  function AwpStep<S, P>(a: Awp<S, P>, op: Op<S, P>): Awp<S, P>
    requires ValidOp(op)
  {
    var r := match op
      case PlayOp(data, sampleRate, now) =>
        (match AwpPlay(a, data, sampleRate, now) case None => None case Some(p) => Some(p.state))
      case PipeOp(port) => AwpPipeFrom(a, port)
      case CloseOp => AwpClose(a);
    if r.Some? then r.value else a
  }

  function RunAwp<S, P>(a: Awp<S, P>, ops: seq<Op<S, P>>): Awp<S, P>
    requires forall k :: 0 <= k < |ops| ==> ValidOp(ops[k])
    decreases |ops|
  {
    if |ops| == 0 then a else RunAwp(AwpStep(a, ops[0]), ops[1..])
  }

  /** How many `done` messages a trace holds. */
  function DoneCount<S, P>(posted: seq<Msg<S, P>>): nat
    decreases |posted|
  {
    if |posted| == 0 then 0 else (if posted[0].Done? then 1 else 0) + DoneCount(posted[1..])
  }

  lemma {:induction false} DoneCountAppend<S, P>(posted: seq<Msg<S, P>>, m: Msg<S, P>)
    ensures DoneCount(posted + [m]) == DoneCount(posted) + if m.Done? then 1 else 0
    decreases |posted|
  {
    if |posted| == 0 {
      assert posted + [m] == [m];
    } else {
      assert (posted + [m])[1..] == posted[1..] + [m];
      DoneCountAppend(posted[1..], m);
    }
  }

  /** The close protocol of an initialised dedicated backend: `done` has been
      posted once exactly when the input is disconnected, never otherwise. */
  predicate CloseProtocol<S, P>(a: Awp<S, P>)
  {
    a.worklet && DoneCount(a.posted) == if a.connected then 0 else 1
  }

  lemma AwpStepKeepsProtocol<S, P>(a: Awp<S, P>, op: Op<S, P>)
    requires ValidOp(op) && CloseProtocol(a)
    ensures CloseProtocol(AwpStep(a, op))
    ensures op.CloseOp? && !a.connected ==> AwpStep(a, op) == a
  {
    match op
    case PlayOp(data, _, _) => DoneCountAppend(a.posted, Data(data));
    case PipeOp(port) => DoneCountAppend(a.posted, In(port));
    case CloseOp => DoneCountAppend(a.posted, Done);
  }

  /** After `init`, any sequence of calls posts `done` at most once: every
      `close` after the first throws and posts nothing. */
  lemma {:induction false} AwpDoneOnce<S, P>(a: Awp<S, P>, ops: seq<Op<S, P>>)
    requires forall k :: 0 <= k < |ops| ==> ValidOp(ops[k])
    requires CloseProtocol(a)
    ensures CloseProtocol(RunAwp(a, ops))
    ensures DoneCount(RunAwp(a, ops).posted) <= 1
    decreases |ops|
  {
    if |ops| > 0 {
      AwpStepKeepsProtocol(a, ops[0]);
      AwpDoneOnce(AwpStep(a, ops[0]), ops[1..]);
    }
  }

  /** A freshly initialised backend is in the protocol. */
  lemma InitStartsProtocol<S, P>()
    ensures CloseProtocol(AwpInit(NewAwp<S, P>()))
  {
  }

  // ---------------------------------------------------------------------
  // Shared worklet (`AudioPlaybackSharedAWP`)

  /** One logical stream: whether `_port` is set, the messages posted on
      that port, and `_endTime`. */
  datatype Shared<S, P> = Shared(open: bool, posted: seq<Msg<S, P>>, endTime: real)

  /** The operations a caller may apply to an initialised stream. */
  datatype Op<S, P> = PlayOp(data: Block<S>, sampleRate: real, now: real) | PipeOp(port: P) | CloseOp

  predicate ValidOp<S, P>(op: Op<S, P>)
  {
    op.PlayOp? ==> WellFormed(op.data) && op.sampleRate > 0.0
  }

  /** `play` (source lines 373-385): post the block if the port is still
      open; the estimate is updated either way. */
  function SharedPlay<S, P>(s: Shared<S, P>, data: Block<S>, sampleRate: real, now: real): (r: Played<Shared<S, P>>)
    requires WellFormed(data) && sampleRate > 0.0
    ensures r.state.open == s.open
    ensures r.state.posted == if s.open then s.posted + [Data(data)] else s.posted
    ensures Played(r.state.endTime, r.latencyMs) == Estimate(s.endTime, Frames(data), sampleRate, now)
  {
    var e := Estimate(s.endTime, Frames(data), sampleRate, now);
    var posted := if s.open then s.posted + [Data(data)] else s.posted;
    Played(Shared(s.open, posted, e.state), e.latencyMs)
  }

  /** `pipeFrom` (source lines 394-397): forward the port if still open. */
  function SharedPipeFrom<S, P>(s: Shared<S, P>, port: P): (r: Shared<S, P>)
    ensures r.open == s.open && r.endTime == s.endTime
    ensures r.posted == if s.open then s.posted + [In(port)] else s.posted
  {
    if s.open then s.(posted := s.posted + [In(port)]) else s
  }

  /** `close` (source lines 418-423): post `stop` on this stream's port only,
      then forget the port. */
  function SharedClose<S, P>(s: Shared<S, P>): (r: Shared<S, P>)
    ensures !r.open && r.endTime == s.endTime
    ensures r.posted == if s.open then s.posted + [Stop] else s.posted
  {
    if s.open then Shared(false, s.posted + [Stop], s.endTime) else s
  }

  function StreamStep<S, P>(s: Shared<S, P>, op: Op<S, P>): Shared<S, P>
    requires ValidOp(op)
  {
    match op
    case PlayOp(data, sampleRate, now) => SharedPlay(s, data, sampleRate, now).state
    case PipeOp(port) => SharedPipeFrom(s, port)
    case CloseOp => SharedClose(s)
  }

  function RunStream<S, P>(s: Shared<S, P>, ops: seq<Op<S, P>>): Shared<S, P>
    requires forall k :: 0 <= k < |ops| ==> ValidOp(ops[k])
    decreases |ops|
  {
    if |ops| == 0 then s else RunStream(StreamStep(s, ops[0]), ops[1..])
  }

  /** The port protocol: `stop` is only ever the last message posted, and
      once it is posted the port is gone. */
  predicate PortProtocol<S, P>(s: Shared<S, P>)
  {
    forall k :: 0 <= k < |s.posted| && s.posted[k].Stop? ==> k == |s.posted| - 1 && !s.open
  }

  lemma StepKeepsProtocol<S, P>(s: Shared<S, P>, op: Op<S, P>)
    requires ValidOp(op) && PortProtocol(s)
    ensures PortProtocol(StreamStep(s, op))
    ensures |StreamStep(s, op).posted| >= |s.posted|
  {
  }

  /** Over any sequence of operations, `stop` is posted at most once and
      nothing is posted after it. */
  lemma {:induction false} RunKeepsProtocol<S, P>(s: Shared<S, P>, ops: seq<Op<S, P>>)
    requires forall k :: 0 <= k < |ops| ==> ValidOp(ops[k])
    requires PortProtocol(s)
    ensures PortProtocol(RunStream(s, ops))
    decreases |ops|
  {
    if |ops| > 0 {
      StepKeepsProtocol(s, ops[0]);
      RunKeepsProtocol(StreamStep(s, ops[0]), ops[1..]);
    }
  }

  /** After `close`, `play`, `pipeFrom` and `close` post nothing more. */
  lemma {:induction false} ClosedPostsNothing<S, P>(s: Shared<S, P>, ops: seq<Op<S, P>>)
    requires forall k :: 0 <= k < |ops| ==> ValidOp(ops[k])
    requires !s.open
    ensures RunStream(s, ops).posted == s.posted
    ensures !RunStream(s, ops).open
    decreases |ops|
  {
    if |ops| > 0 {
      ClosedPostsNothing(StreamStep(s, ops[0]), ops[1..]);
    }
  }

  /** The audio context's shared worklet (`rtePlaySharedWorklet`): how many times it was created, and the
      ports registered with it by `{c:"in"}` messages, by stream id. */
  datatype Node = Node(created: nat, registered: seq<nat>)

  /** The shared node and every stream that has been initialised, by id. */
  datatype Mux<S, P> = Mux(node: Node, streams: map<nat, Shared<S, P>>)

  function NewMux<S, P>(): Mux<S, P>
  {
    Mux(Node(0, []), map[])
  }

  /** `init` of a freshly constructed stream (source lines 339-367): create the
      shared worklet if no stream has yet, then register a new private port. */
  function SharedInit<S, P>(m: Mux<S, P>, id: nat): (r: Mux<S, P>)
    requires id !in m.streams
    ensures r.node.created == if m.node.created == 0 then 1 else m.node.created
    ensures r.node.registered == m.node.registered + [id]
    ensures r.streams == m.streams[id := Shared(true, [], -1.0)]
  {
    var created := if m.node.created == 0 then 1 else m.node.created;
    Mux(Node(created, m.node.registered + [id]), m.streams[id := Shared(true, [], -1.0)])
  }

  /** An operation on one initialised stream of the multiplexer. */
  function MuxStep<S, P>(m: Mux<S, P>, id: nat, op: Op<S, P>): (r: Mux<S, P>)
    requires id in m.streams && ValidOp(op)
    ensures r.node == m.node && r.streams.Keys == m.streams.Keys
    ensures r.streams[id] == StreamStep(m.streams[id], op)
    ensures forall other :: other in m.streams && other != id ==> r.streams[other] == m.streams[other]
  {
    Mux(m.node, m.streams[id := StreamStep(m.streams[id], op)])
  }

  /** However many streams are initialised, the shared worklet is created once. */
  lemma {:induction false} CreatedOnce<S, P>(m: Mux<S, P>, ids: seq<nat>)
    requires m.node.created <= 1
    requires forall k :: 0 <= k < |ids| ==> ids[k] !in m.streams
    requires forall k, l :: 0 <= k < l < |ids| ==> ids[k] != ids[l]
    ensures InitAll(m, ids).node.created == if |ids| == 0 then m.node.created else 1
    decreases |ids|
  {
    if |ids| > 0 {
      CreatedOnce(SharedInit(m, ids[0]), ids[1..]);
    }
  }

  function InitAll<S, P>(m: Mux<S, P>, ids: seq<nat>): Mux<S, P>
    requires forall k :: 0 <= k < |ids| ==> ids[k] !in m.streams
    requires forall k, l :: 0 <= k < l < |ids| ==> ids[k] != ids[l]
    decreases |ids|
  {
    if |ids| == 0 then m else InitAll(SharedInit(m, ids[0]), ids[1..])
  }

  /** Closing stream `a` neither tears down the shared node nor changes what
      any later operation on another stream `b` does or returns. */
  lemma CloseIsolated<S, P>(m: Mux<S, P>, a: nat, b: nat, data: Block<S>, sampleRate: real, now: real)
    requires a in m.streams && b in m.streams && a != b
    requires WellFormed(data) && sampleRate > 0.0
    ensures var closed := MuxStep(m, a, CloseOp);
      && closed.node == m.node
      && closed.streams[b] == m.streams[b]
      && !closed.streams[a].open
      && SharedPlay(closed.streams[b], data, sampleRate, now) == SharedPlay(m.streams[b], data, sampleRate, now)
  {
  }
}
